=== FILE: README.md ===
# OSSF ingestion engine: the pure core of `getData`

`getData(pkgName)` collects metadata about an npm package's source
repository. It asks the npms.io registry for the repository URL, turns that
URL into a GitHub `owner/name` identifier, asks the GitHub API for the newest
commit, the number of contributors and commits, the newest release and the
license, and returns one record with six fields.

This Dafny project models the parts of that pipeline that compute something.
The HTTP answers are inputs:

- `Repository`: `getOwnerAndRepository`, JavaScript's first-occurrence
  `String.prototype.replace` of the literal `"https://github.com/"`.
- `Strings`: `indexOf`/`includes` with a string argument, and `split` with a
  one-character separator together with the `join` that undoes it.
- `PagePattern`: the regular expression `/<.*page=(\d+).*>/`. It returns the
  leftmost match, and at that start the longest one. The greedy trailing `.*`
  stops at the last `>` before a line terminator.
- `FormUrlEncoded`: `new URLSearchParams(s).get(name)`, following the
  application/x-www-form-urlencoded parser of the WHATWG URL Standard.
- `LinkHeader`: the last-page probe that `getNumberOfContributors` and
  `getNumberOfCommits` both apply to the `link` response header. The two copies
  in the source are identical, so one function (`LastPage`) serves both. Its
  result is `Fail` when the chain throws, `Null` when `get("page")` returns
  null, and `Page(text)` otherwise.
- `Selection`: the two sentinel choices, `"No release found"` and
  `"No license found"`.
- `Metadata`: `getData` as a whole. The registry, the GitHub answers,
  `encodeURIComponent` and `JSON.stringify` are supplied by the caller as
  `Services`. The result is `None` when any stage throws.

The field `repository` of the record is the URL the registry returned, not the
`owner/name` identifier: the source writes `{ repository, ... }` with the
variable holding the raw URL. The name `getOwnerAndRepository` and the sample
URL in its comment suggest a prefix strip. The code removes the first
occurrence of the literal wherever it stands, and the model follows the code.

The probe hands the whole bracketed URL, not only its query, to
URLSearchParams. A URL whose `page` is its first query parameter and that has
no second `page` parameter, such as `<https://host/path?page=42>`, therefore
yields null: the first pair is named `https://host/path?page`, and no pair is
named `page`. The GitHub headers quoted
in the source carry `page` after other parameters, so they are read correctly.

## Model

| member | source | states |
|---|---|---|
| Strings.Contains | src/getData.js:31 | `link.includes("last")`: the pattern occurs somewhere in the piece. Its meaning comes from the contract of Strings.IndexOf. |
| Strings.IndexOf | src/getData.js:31 | The result is the first position where the pattern occurs; None exactly when it occurs nowhere (`includes` is `IndexOf(..).Some?`). |
| Strings.Split | src/getData.js:29-30 | `split(",")` yields at least one piece, no piece contains the separator, and joining the pieces with it gives back the header. |
| Strings.SplitJoin | src/getData.js:29-30 | Splitting the join of separator-free pieces gives back exactly those pieces. |
| Strings.SplitConcat | src/getData.js:29-30 | Splitting `a + sep + b` is splitting `a` followed by splitting `b`. |
| Repository.OwnerAndRepository | src/getData.js:9-11 | getOwnerAndRepository: the first occurrence of `"https://github.com/"` is removed by Repository.RemoveFirst. Its behaviour is pinned down by the four OwnerAndRepository lemmas below. |
| Repository.RemoveFirst | src/getData.js:11 | Replace with a string pattern and `""`: without an occurrence the string is unchanged; otherwise the result is 19 characters shorter here, and putting the pattern back at the first occurrence's index restores the input. |
| Repository.OwnerAndRepositoryOfGitHubUrl | src/getData.js:9-11 | `"https://github.com/" + rest` becomes `rest` for every `rest`, including one that holds the literal again. |
| Repository.OwnerAndRepositoryOfSample | src/getData.js:10-11 | The commented sample, the literal `https://github.com/` followed by `facebook/react`, gives `facebook/react`. |
| Repository.OwnerAndRepositoryUnchangedIff | src/getData.js:11 | The identifier equals the input if and only if the literal does not occur in it; when it occurs, the identifier is exactly 19 characters shorter. |
| Repository.OwnerAndRepositoryRemovesInnerLiteral | src/getData.js:11 | The literal is removed even when it is not at the start: `pre + literal + rest` becomes `pre + rest` (for `pre` without an `h`). |
| PagePattern.MatchAt | src/getData.js:32 | At a start index, the result is a match of `<.*page=(\d+).*>`, no match from there ends later, and None means no match starts there. |
| PagePattern.MatchEndIsGreedy | src/getData.js:32 | Whatever split of a match the backtracking engine settles on, its trailing `.*` stretches to the end MatchAt gives. So MatchAt is the match JavaScript returns. |
| PagePattern.FindMatch | src/getData.js:32 | The match returned is the leftmost one, longest at that start, and at least 8 characters long; None exactly when the pattern matches nowhere (`match` returns null). |
| FormUrlEncoded.PercentDecode | src/getData.js:34 | Percent-decoding of a name or value. The result is never longer than the input. It undoes percent-encoding of ASCII text (FormUrlEncoded.PercentDecodeEncode) and leaves text without `%` unchanged. |
| FormUrlEncoded.ParseEntry | src/getData.js:34 | One `&`-separated entry, cut at its first `=` into a name and a value, both decoded. FormUrlEncoded.ParseSerialize shows it reads a plain `name=value` back as that pair. |
| FormUrlEncoded.Parse | src/getData.js:34 | The application/x-www-form-urlencoded parser: split on `&`, skip empty entries, parse each. FormUrlEncoded.ParseSerialize and FormUrlEncoded.ParseConcat pin it down. |
| FormUrlEncoded.SearchParams | src/getData.js:34 | `new URLSearchParams(s)`: one leading `?` is dropped and the rest is parsed. |
| FormUrlEncoded.Get | src/getData.js:34 | `get(name)` returns the value of the first pair with that name; None (null) exactly when no pair has that name. |
| FormUrlEncoded.PercentDecodeEncode | src/getData.js:34 | Percent-decoding undoes percent-encoding of ASCII text. |
| FormUrlEncoded.ParseSerialize | src/getData.js:34 | Parsing the serialisation of plain name/value pairs gives back those pairs in order. |
| FormUrlEncoded.ParseConcat | src/getData.js:34 | Parsing `x + "&" + y` is parsing `x` followed by parsing `y`. |
| FormUrlEncoded.GetAppend | src/getData.js:34 | Looking a name up in `a + b` finds it in `a` when it is there, and otherwise in `b`. |
| LinkHeader.LastPage | src/getData.js:28-34 | The whole probe from the value of `headers.get("link")`. The commit count at src/getData.js:60-66 uses the same function. Its behaviour is pinned down by the LinkHeader lemmas below. |
| LinkHeader.MatchedUrl | src/getData.js:32 | `match(...)[0].slice(1, -1)`: the leftmost, longest match found by PagePattern.FindMatch, without its first and last characters, `<` and `>`. None stands for a null match. |
| LinkHeader.PageOfLink | src/getData.js:32-34 | The selected piece to its `page` value: Fail for a null match, otherwise `get("page")` of the matched URL. |
| LinkHeader.FirstContaining | src/getData.js:31 | `find(link => link.includes("last"))` selects the first piece containing the text; None (undefined) exactly when no piece does. |
| LinkHeader.LastPageFailsWithoutLastPiece | src/getData.js:28-32 | A missing header, or one where no comma-separated piece contains `last` (a single-page listing), makes the probe fail rather than yield a count. |
| LinkHeader.PageOfLinkFailsIff | src/getData.js:32 | Reading the selected piece fails exactly when the pattern matches nowhere in it. |
| LinkHeader.LastPageReadsFirstLastPiece | src/getData.js:29-34 | Only the first piece containing `last` is read: pieces before it without `last`, and all pieces after it, have no influence. |
| LinkHeader.PageOfBracketedUrl | src/getData.js:32-34 | Take a piece `pre <url> post` where `pre` holds no `<`, `post` holds no `>`, `url` is one line and contains `page=` followed by a digit. The brackets are dropped and the result is `get("page")` of `url`. If `url` is one line but has no `page=` followed by a digit, the match is null and the probe fails. |
| LinkHeader.PageAsFirstParameterIsNull | src/getData.js:32-34 | A link `pre <u?page=n> post` whose `page` is the URL's first parameter yields null, not `n`. Here `u` is a non-empty single-line URL without `&`, `=`, `+` or `%` that does not start with `?`. |
| LinkHeader.LastPageParam | src/getData.js:34 | Appending `&page=<digits>` to a URL without a `page` parameter makes those digits the `page` value. This includes an empty URL and a relative one starting with `?`. |
| LinkHeader.LastPageOfPaginationHeader | src/getData.js:28-34 | Take a header shaped as GitHub's next/last pair, `<url query&page=next>; rel="next", <url query&page=last>; rel="last"` followed by `tail`. Assume `url` and `query` have no `l`, comma or line break, `url query` has no `page` parameter of its own, and `tail` has no `,` or `>`. Then the probe yields the `last` link's page number. |
| LinkHeader.ContributorsSampleLastPage | src/getData.js:26-34 | The sample header quoted in getNumberOfContributors yields `"1746"`. |
| LinkHeader.CommitsSampleLastPage | src/getData.js:58-66 | The sample header quoted in getNumberOfCommits, stray quote included, yields `"15221"`. |
| Selection.LastRelease | src/getData.js:77-81 | getLastRelease after decoding: the first release's (nullable) name, or `"No release found"` for an empty list. Selection.LastReleaseSentinel states what this means. |
| Selection.LastReleaseSentinel | src/getData.js:77-81 | Only the first release is read and its name is returned. `"No release found"` comes back exactly when the list is empty or that release bears this very name. |
| Selection.License | src/getData.js:46-50 | getLicense after decoding: the serialised `files.license` when the key is present, else `"No license found"`. Selection.LicenseSentinel and Selection.LicenseReadsOnlyLicenseKey state what this means. |
| Selection.LicenseSentinel | src/getData.js:46-50 | When serialisation never yields the bare sentinel text, `"No license found"` comes back exactly when `files` has no `license` key; otherwise the result is the serialised license. |
| Selection.LicenseReadsOnlyLicenseKey | src/getData.js:46-47 | No entry of `files` other than `license` affects the result. |
| Metadata.GetData | src/getData.js:84-103 | getData: the stages in source order, None when one throws, otherwise the six-field record. The three Metadata lemmas below pin it down. |
| Metadata.GetDataSucceedsIff | src/getData.js:84-92 | getData resolves exactly when the registry names a repository, GitHub answers for the identifier derived from it, the commits listing is non-empty and both last-page probes succeed. Neither sentinel makes it fail. |
| Metadata.GetDataFields | src/getData.js:94-101 | The record holds, in order, the raw repository URL, the newest commit's date, the two probe results, the release selection and the license selection, each unchanged. |
| Metadata.GetDataForGitHubUrl | src/getData.js:86-87 | A package whose repository is `https://github.com/` + `rest` is looked up on GitHub under `rest`, while the record keeps the full URL. |

## Left out

- The HTTP requests (`ghRequest`), `.json()` decoding and `headers.get`. They are network I/O through `utils.js`, which is not part of this model. Their decoded answers are inputs (`Services`, `GitHubAnswers`).
- The `async`/`await` sequencing and which requests were already issued when a later stage throws. The model keeps only the data flow and the all-or-nothing outcome.
- `new Date(date)` in getLastCommit. It is date parsing by the JavaScript runtime, so the commit date stays the text the API returned.
- `encodeURIComponent` and `JSON.stringify(value, null, 2)`. They are library serialisers, modelled as opaque functions supplied by the caller.
- The kinds of error a failing stage throws (TypeError, network failure, JSON syntax error). All of them become `None`.
- A `files` value that is null or undefined in getLicense, where `Object.hasOwn` would throw. A string or number `files` has no own `license` key and gives the sentinel, as an empty map does. `files` is modelled as a map.
- FormUrlEncoded.PercentDecode: only escapes for code points up to %7F are decoded. Higher escapes stay as written, because decoding them means UTF-8 reassembly. The name `page` and the digits read here are not affected.
- LinkHeader.LastPageOfPaginationHeader: proved only for URL and query text without the letter `l`, commas or line breaks, and without a `page` parameter of their own. A URL holding "last" would make an earlier piece the selected one.
- Behaviour of the npms.io and GitHub servers: real header shapes, rate limiting and pagination sizes.

=== FILE: form_urlencoded.dfy ===
/**
 * `new URLSearchParams(init).get(name)` for a string `init`, following the
 * application/x-www-form-urlencoded parser of the WHATWG URL Standard: a
 * leading '?' is dropped, the rest is split on '&', empty entries are skipped,
 * each entry is cut at its first '=' into a name and a value (a missing '='
 * gives an empty value), '+' becomes a space and percent-escapes are decoded.
 * `get` returns the value of the first pair with that name, or null.
 */
module FormUrlEncoded {
  import opened Wrappers
  import opened Strings

  /** A (name, value) pair of the parsed list. */
  type Param = (string, string)

  predicate IsHexDigit(c: char) {
    '0' <= c <= '9' || 'a' <= c <= 'f' || 'A' <= c <= 'F'
  }

  function HexValue(c: char): (v: nat)
    requires IsHexDigit(c)
    ensures v < 16
  {
    if '0' <= c <= '9' then c as int - '0' as int
    else if 'a' <= c <= 'f' then c as int - 'a' as int + 10
    else c as int - 'A' as int + 10
  }

  /** The upper-case hexadecimal digit for `v`; HexValue reads it back. */
  function HexDigit(v: nat): (c: char)
    requires v < 16
    ensures IsHexDigit(c) && HexValue(c) == v
  {
    if v < 10 then ('0' as int + v) as char else ('A' as int + v - 10) as char
  }

  /** Every '+' becomes a space; the other characters are kept. */
  function PlusToSpace(s: string): string {
    seq(|s|, k requires 0 <= k < |s| => if s[k] == '+' then ' ' else s[k])
  }

  /**
   * Percent-decoding: '%' followed by two hexadecimal digits stands for that
   * byte; a '%' not followed by two hexadecimal digits is kept as it is.
   * Escapes of bytes 0x00-0x7F decode to that character; escapes of bytes
   * 0x80-0xFF (parts of multi-byte UTF-8 sequences) are kept as written.
   */
  function PercentDecode(s: string): (r: string)
    ensures |r| <= |s|
    decreases |s|
  {
    if |s| == 0 then ""
    else if s[0] == '%' && |s| >= 3 && IsHexDigit(s[1]) && IsHexDigit(s[2]) && HexValue(s[1]) < 8 then
      [(16 * HexValue(s[1]) + HexValue(s[2])) as char] + PercentDecode(s[3..])
    else
      [s[0]] + PercentDecode(s[1..])
  }

  predicate IsAscii(s: string) {
    forall k :: 0 <= k < |s| ==> s[k] as int < 128
  }

  /** Escapes every character of an ASCII string as "%XX". */
  function PercentEncode(s: string): (r: string)
    requires IsAscii(s)
    ensures |r| == 3 * |s|
    decreases |s|
  {
    if |s| == 0 then ""
    else ['%', HexDigit(s[0] as int / 16), HexDigit(s[0] as int % 16)] + PercentEncode(s[1..])
  }

  /** Decoding undoes escaping: every ASCII string survives the round trip. */
  lemma {:induction false} PercentDecodeEncode(s: string)
    requires IsAscii(s)
    ensures PercentDecode(PercentEncode(s)) == s
    decreases |s|
  {
    if |s| > 0 {
      var e := PercentEncode(s);
      var hi, lo := s[0] as int / 16, s[0] as int % 16;
      assert e[1] == HexDigit(hi) && e[2] == HexDigit(lo);
      assert e[3..] == PercentEncode(s[1..]);
      PercentDecodeEncode(s[1..]);
      assert (16 * hi + lo) as char == s[0];
      assert s == [s[0]] + s[1..];
    }
  }

  /** A string without '%' decodes to itself. */
  lemma {:induction false} PercentDecodeWithoutEscapes(s: string)
    requires '%' !in s
    ensures PercentDecode(s) == s
    decreases |s|
  {
    if |s| > 0 {
      PercentDecodeWithoutEscapes(s[1..]);
      assert s == [s[0]] + s[1..];
    }
  }

  /** How a name or a value of an entry is decoded. */
  function DecodeComponent(s: string): string {
    PercentDecode(PlusToSpace(s))
  }

  /** One non-empty entry, cut at its first '='. */
  function ParseEntry(entry: string): Param {
    match IndexOf(entry, "=")
    case None => (DecodeComponent(entry), "")
    case Some(k) => (DecodeComponent(entry[..k]), DecodeComponent(entry[k + 1..]))
  }

  function ParseEntries(entries: seq<string>): seq<Param>
    decreases |entries|
  {
    if |entries| == 0 then []
    else if entries[0] == "" then ParseEntries(entries[1..])
    else [ParseEntry(entries[0])] + ParseEntries(entries[1..])
  }

  /** The application/x-www-form-urlencoded parser. */
  function Parse(input: string): seq<Param> {
    ParseEntries(Split(input, '&'))
  }

  /** The list a URLSearchParams built from the string `init` holds. */
  function SearchParams(init: string): seq<Param> {
    Parse(if |init| > 0 && init[0] == '?' then init[1..] else init)
  }

  /** `params.get(name)`: the value of the first pair named `name`; None for null. */
  function Get(params: seq<Param>, name: string): (r: Option<string>)
    ensures r.Some? ==> exists k :: 0 <= k < |params| && params[k] == (name, r.value)
                                     && forall j :: 0 <= j < k ==> params[j].0 != name
    ensures r.None? <==> forall k :: 0 <= k < |params| ==> params[k].0 != name
    decreases |params|
  {
    if |params| == 0 then None
    else if params[0].0 == name then Some(params[0].1)
    else
      var r := Get(params[1..], name);
      assert r.Some? ==> var k :| 0 <= k < |params| - 1 && params[1..][k] == (name, r.value)
                                    && forall j :: 0 <= j < k ==> params[1..][j].0 != name;
                         params[k + 1] == (name, r.value) && forall j :: 0 <= j < k + 1 ==> params[j].0 != name;
      r
  }

  /** Text that needs no escaping in a name or value: none of '&', '=', '+', '%'. */
  predicate Plain(s: string) {
    '&' !in s && '=' !in s && '+' !in s && '%' !in s
  }

  predicate PlainParam(p: Param) {
    Plain(p.0) && Plain(p.1)
  }

  /** The entries "name=value" of a list of pairs. */
  function Entries(params: seq<Param>): (r: seq<string>)
    ensures |r| == |params|
    ensures forall k :: 0 <= k < |params| ==> r[k] == params[k].0 + "=" + params[k].1
    decreases |params|
  {
    if |params| == 0 then [] else [params[0].0 + "=" + params[0].1] + Entries(params[1..])
  }

  /** Serialising a list of plain pairs: the entries joined with '&'. */
  function Serialize(params: seq<Param>): string {
    Join(Entries(params), '&')
  }

  /** A plain entry "name=value" reads back as (name, value). */
  lemma ParseEntryPlain(name: string, value: string)
    requires Plain(name) && Plain(value)
    ensures ParseEntry(name + "=" + value) == (name, value)
  {
    var e := name + "=" + value;
    assert OccursAt(e, "=", |name|) by { assert e[|name|..|name| + 1] == "="; }
    forall j: nat | j < |name|
      ensures !OccursAt(e, "=", j)
    {
      assert e[j] == name[j];
    }
    assert e[..|name|] == name && e[|name| + 1..] == value;
    assert PlusToSpace(name) == name;
    assert PlusToSpace(value) == value;
    PercentDecodeWithoutEscapes(name);
    PercentDecodeWithoutEscapes(value);
  }

  lemma {:induction false} ParseEntriesPlain(params: seq<Param>)
    requires forall k :: 0 <= k < |params| ==> PlainParam(params[k])
    ensures ParseEntries(Entries(params)) == params
    decreases |params|
  {
    if |params| > 0 {
      var es := Entries(params);
      assert es[0] != "" by { assert |es[0]| > 0; }
      ParseEntryPlain(params[0].0, params[0].1);
      assert es[1..] == Entries(params[1..]);
      ParseEntriesPlain(params[1..]);
      assert params == [params[0]] + params[1..];
    }
  }

  /** Parsing undoes serialising for every list of plain pairs. */
  lemma ParseSerialize(params: seq<Param>)
    requires forall k :: 0 <= k < |params| ==> PlainParam(params[k])
    ensures Parse(Serialize(params)) == params
  {
    var es := Entries(params);
    if |params| > 0 {
      forall k | 0 <= k < |es|
        ensures '&' !in es[k]
      {
        assert es[k] == params[k].0 + "=" + params[k].1;
      }
      SplitJoin(es, '&');
      ParseEntriesPlain(params);
    }
  }

  lemma {:induction false} ParseEntriesAppend(a: seq<string>, b: seq<string>)
    ensures ParseEntries(a + b) == ParseEntries(a) + ParseEntries(b)
    decreases |a|
  {
    if |a| == 0 {
      assert a + b == b;
    } else {
      assert (a + b)[0] == a[0] && (a + b)[1..] == a[1..] + b;
      ParseEntriesAppend(a[1..], b);
    }
  }

  /** Entries on either side of an '&' are parsed independently, in order. */
  lemma ParseConcat(x: string, y: string)
    ensures Parse(x + "&" + y) == Parse(x) + Parse(y)
  {
    assert x + "&" + y == x + ['&'] + y;
    SplitConcat(x, y, '&');
    ParseEntriesAppend(Split(x, '&'), Split(y, '&'));
  }

  /** get looks in the later pairs only when the earlier ones lack the name. */
  lemma {:induction false} GetAppend(a: seq<Param>, b: seq<Param>, name: string)
    ensures Get(a + b, name) == if Get(a, name).Some? then Get(a, name) else Get(b, name)
    decreases |a|
  {
    if |a| == 0 {
      assert a + b == b;
    } else {
      assert (a + b)[0] == a[0] && (a + b)[1..] == a[1..] + b;
      GetAppend(a[1..], b, name);
    }
  }
}

=== FILE: link_header.dfy ===
/**
 * The last-page probe of getNumberOfContributors and getNumberOfCommits: both
 * read the `link` response header the same way, so one function, LastPage,
 * serves both. Its steps, in order:
 *
 *   - cut the header into pieces at every comma (Strings.Split);
 *   - select the first piece that contains the text "last" (FirstContaining);
 *   - take the first match of the page pattern in it (PagePattern.FindMatch)
 *     and drop its opening '<' and closing '>' (MatchedUrl);
 *   - read the first parameter named `page` of what remains, parsed as a
 *     URLSearchParams (FormUrlEncoded.Get of FormUrlEncoded.SearchParams).
 *
 * A missing header (null), no piece holding "last" (undefined) and a piece
 * the pattern does not match (null) all make the next step throw: Fail. A
 * matched URL without a `page` parameter yields null: Null.
 */
module LinkHeader {
  import opened Wrappers
  import opened Strings
  import opened PagePattern
  import opened FormUrlEncoded

  datatype PageResult = Fail | Null | Page(value: string)

  /** The text the piece for the last page is recognised by. */
  const LastRel := "last"

  /** The index of the first piece that contains `pat`, as Array.prototype.find looks for it. */
  function FirstContaining(pieces: seq<string>, pat: string): (r: Option<nat>)
    ensures r.Some? ==> r.value < |pieces| && Contains(pieces[r.value], pat)
    ensures r.Some? ==> forall k :: 0 <= k < r.value ==> !Contains(pieces[k], pat)
    ensures r.None? <==> forall k :: 0 <= k < |pieces| ==> !Contains(pieces[k], pat)
    decreases |pieces|
  {
    if |pieces| == 0 then None
    else if Contains(pieces[0], pat) then Some(0)
    else match FirstContaining(pieces[1..], pat)
      case None => None
      case Some(k) => Some(k + 1)
  }

  function ToPageResult(v: Option<string>): PageResult {
    match v
    case None => Null
    case Some(page) => Page(page)
  }

  /** The first match of the pattern in `link`, without its '<' and '>'; None for null. */
  function MatchedUrl(link: string): Option<string> {
    match FindMatch(link)
    case None => None
    case Some((i, j)) => Some(link[i + 1..j - 1])
  }

  /** From the selected piece on: match, strip the angle brackets, read `page`. */
  function PageOfLink(link: string): PageResult {
    match MatchedUrl(link)
    case None => Fail
    case Some(url) => ToPageResult(Get(SearchParams(url), "page"))
  }

  /** The whole extraction, from the value `headers.get("link")` returned. */
  function LastPage(header: Option<string>): PageResult {
    match header
    case None => Fail
    case Some(h) =>
      var pieces := Split(h, ',');
      match FirstContaining(pieces, LastRel)
      case None => Fail
      case Some(k) => PageOfLink(pieces[k])
  }

  /**
   * Without a header, or when no comma-separated piece holds "last" (a
   * single-page listing), the extraction fails: it never defaults to a count.
   */
  lemma LastPageFailsWithoutLastPiece(h: string)
    requires forall k :: 0 <= k < |Split(h, ',')| ==> !Contains(Split(h, ',')[k], LastRel)
    ensures LastPage(Some(h)) == Fail
    ensures LastPage(None) == Fail
  {
  }

  /** Reading the selected piece fails exactly when the pattern matches nowhere in it. */
  lemma PageOfLinkFailsIff(link: string)
    ensures PageOfLink(link) == Fail <==> forall i: nat, j: nat :: !Matches(link, i, j)
  {
  }

  /**
   * The piece read is the first one holding "last": any pieces before it are
   * skipped, and so is everything after it.
   */
  lemma LastPageReadsFirstLastPiece(before: seq<string>, piece: string, after: seq<string>)
    requires forall k :: 0 <= k < |before| ==> ',' !in before[k] && !Contains(before[k], LastRel)
    requires forall k :: 0 <= k < |after| ==> ',' !in after[k]
    requires ',' !in piece && Contains(piece, LastRel)
    ensures LastPage(Some(Join(before + [piece] + after, ','))) == PageOfLink(piece)
  {
    var pieces := before + [piece] + after;
    PiecesWithoutComma(before, piece, after);
    SplitJoin(pieces, ',');
    FirstContainingSkips(before, piece, after);
    LastPageOfPieces(Join(pieces, ','), pieces, |before|);
  }

  lemma PiecesWithoutComma(before: seq<string>, piece: string, after: seq<string>)
    requires forall k :: 0 <= k < |before| ==> ',' !in before[k]
    requires forall k :: 0 <= k < |after| ==> ',' !in after[k]
    requires ',' !in piece
    ensures forall k :: 0 <= k < |before + [piece] + after| ==> ',' !in (before + [piece] + after)[k]
  {
    var pieces := before + [piece] + after;
    forall k | 0 <= k < |pieces|
      ensures ',' !in pieces[k]
    {
      if k > |before| { assert pieces[k] == after[k - |before| - 1]; }
    }
  }

  /** Once the pieces and the selected index are known, only that piece matters. */
  lemma LastPageOfPieces(h: string, pieces: seq<string>, k: nat)
    requires Split(h, ',') == pieces && k < |pieces|
    requires FirstContaining(pieces, LastRel) == Some(k)
    ensures LastPage(Some(h)) == PageOfLink(pieces[k])
  {
  }

  lemma FirstContainingSkips(before: seq<string>, piece: string, after: seq<string>)
    requires forall k :: 0 <= k < |before| ==> !Contains(before[k], LastRel)
    requires Contains(piece, LastRel)
    ensures FirstContaining(before + [piece] + after, LastRel) == Some(|before|)
  {
    var pieces := before + [piece] + after;
    var r := FirstContaining(pieces, LastRel);
    assert pieces[|before|] == piece;
  }

  /** No line terminator in `s`: all of it can be covered by `.*`. */
  predicate SingleLine(s: string) {
    '\n' !in s && '\r' !in s && '\U{2028}' !in s && '\U{2029}' !in s
  }

  /**
   * A piece of the form `pre <url> post`, where `pre` holds no '<', `post` holds
   * no '>' and `url` is one line with "page=" and a digit in it, yields the
   * first `page` parameter of `url` read as URLSearchParams reads it.
   */
  lemma PageOfBracketedUrl(pre: string, url: string, post: string)
    requires '<' !in pre && '>' !in post && SingleLine(url)
    requires exists q: nat :: PageDigitAt(url, q)
    ensures PageOfLink(pre + "<" + url + ">" + post) == ToPageResult(Get(SearchParams(url), "page"))
  {
    var s := pre + "<" + url + ">" + post;
    BracketedUrlMatch(pre, url, post);
    BracketedSlice(pre, url, post);
    PageOfMatchedLink(s, url, |pre|, |pre| + |url| + 2);
  }

  /**
   * When `page` is the first query parameter of the selected URL, the probe
   * yields null: URLSearchParams is given the whole URL, so the first pair is
   * named `<url>?page`, and no pair is named `page`.
   */
  lemma PageAsFirstParameterIsNull(pre: string, u: string, n: string, post: string)
    requires '<' !in pre && '>' !in post
    requires |u| > 0 && u[0] != '?' && Plain(u) && SingleLine(u) && IsNumeral(n)
    ensures PageOfLink(pre + "<" + (u + "?page=" + n) + ">" + post) == Null
  {
    var url := u + "?page=" + n;
    assert PageDigitAt(url, |u| + 1) by {
      assert url[|u| + 1..|u| + 6] == "page=";
      assert url[|u| + 6] == n[0];
    }
    assert SingleLine(url) by {
      assert forall k :: 0 <= k < |n| ==> !IsLineTerminator(n[k]);
    }
    PageOfBracketedUrl(pre, url, post);
    FirstParameterName(u, n);
  }

  lemma FirstParameterName(u: string, n: string)
    requires |u| > 0 && u[0] != '?' && Plain(u) && IsNumeral(n)
    ensures Get(SearchParams(u + "?page=" + n), "page").None?
  {
    var name := u + "?page";
    assert forall k :: 0 <= k < |n| ==> UrlTextChar(n[k]) && PlainChar(n[k]);
    TextByChars(n);
    assert u + "?page=" + n == name + "=" + n;
    assert Serialize([(name, n)]) == name + "=" + n;
    ParseSerialize([(name, n)]);
    assert |name| > |"page"|;
  }

  lemma BracketedSlice(pre: string, url: string, post: string)
    ensures (pre + "<" + url + ">" + post)[|pre| + 1..|pre| + |url| + 1] == url
  {
    var s := pre + "<" + url + ">" + post;
    assert forall k :: 0 <= k < |url| ==> s[|pre| + 1 + k] == url[k];
  }

  /** Once the match is known, only the text between its brackets matters. */
  lemma PageOfMatchedLink(s: string, url: string, i: nat, j: nat)
    requires FindMatch(s) == Some((i, j)) && i + 1 <= j - 1 <= |s| && s[i + 1..j - 1] == url
    ensures PageOfLink(s) == ToPageResult(Get(SearchParams(url), "page"))
  {
    MatchedUrlOf(s, i, j);
    PageOfMatchedUrl(s, url);
  }

  lemma MatchedUrlOf(s: string, i: nat, j: nat)
    requires FindMatch(s) == Some((i, j))
    ensures MatchedUrl(s) == Some(s[i + 1..j - 1])
  {
    var m := FindMatch(s);
    assert m.Some? && m.value == (i, j);
  }

  lemma PageOfMatchedUrl(s: string, url: string)
    requires MatchedUrl(s) == Some(url)
    ensures PageOfLink(s) == ToPageResult(Get(SearchParams(url), "page"))
  {
  }

  /** The match of such a piece spans exactly `<url>`. */
  lemma BracketedUrlMatch(pre: string, url: string, post: string)
    requires '<' !in pre && '>' !in post && SingleLine(url)
    requires exists q: nat :: PageDigitAt(url, q)
    ensures FindMatch(pre + "<" + url + ">" + post) == Some((|pre|, |pre| + |url| + 2))
  {
    var s := pre + "<" + url + ">" + post;
    BracketedUrlMatches(pre, url, post);
    forall i: nat, j: nat | Matches(s, i, j)
      ensures |pre| <= i && j <= |pre| + |url| + 2
    {
      BracketedMatchBounds(s, pre, url, post, i, j);
    }
    FindMatchOfWidest(s, |pre|, |pre| + |url| + 2);
  }

  /** A match that starts no later and ends no earlier than every other is the one found. */
  lemma FindMatchOfWidest(s: string, i0: nat, j0: nat)
    requires Matches(s, i0, j0)
    requires forall i: nat, j: nat :: Matches(s, i, j) ==> i0 <= i && j <= j0
    ensures FindMatch(s) == Some((i0, j0))
  {
    var m := FindMatch(s);
    assert m.Some?;
    assert m.value.0 == i0;
    assert m.value.1 == j0;
  }

  /** `<url>` itself is a match. */
  lemma BracketedUrlMatches(pre: string, url: string, post: string)
    requires SingleLine(url)
    requires exists q: nat :: PageDigitAt(url, q)
    ensures Matches(pre + "<" + url + ">" + post, |pre|, |pre| + |url| + 2)
  {
    var s := pre + "<" + url + ">" + post;
    var i0, r := |pre|, |pre| + 1 + |url|;
    assert s[i0] == '<' && s[r] == '>';
    var q0: nat :| PageDigitAt(url, q0);
    var q := i0 + 1 + q0;
    assert s[q..q + 5] == url[q0..q0 + 5];
    assert s[q + 5] == url[q0 + 5];
    forall k | i0 + 1 <= k < r
      ensures !IsLineTerminator(s[k])
    {
      assert s[k] == url[k - i0 - 1];
    }
    assert MatchesWith(s, i0, q, q + 6, r + 1);
  }

  /** No match of such a piece starts before its '<' or ends after its '>'. */
  lemma BracketedMatchBounds(s: string, pre: string, url: string, post: string, i: nat, j: nat)
    requires s == pre + "<" + url + ">" + post
    requires '<' !in pre && '>' !in post
    requires Matches(s, i, j)
    ensures |pre| <= i && j <= |pre| + |url| + 2
  {
    var q: nat, t: nat :| MatchesWith(s, i, q, t, j);
    assert forall k :: 0 <= k < |pre| ==> s[k] == pre[k];
    assert forall k :: |pre| + |url| + 2 <= k < |s| ==> s[k] == post[k - |pre| - |url| - 2];
  }

  /** A non-empty run of ASCII digits. */
  predicate IsNumeral(s: string) {
    |s| > 0 && forall k :: 0 <= k < |s| ==> IsDigit(s[k])
  }

  /**
   * A header in the shape GitHub sends for a listing of several pages: the
   * `next` link, then the `last` link, both to `url + query` with a final
   * `&page=` parameter; `tail` is whatever follows rel="last".
   */
  function PaginationHeader(url: string, query: string, next: string, last: string, tail: string): string {
    "<" + url + query + "&page=" + next + ">; rel=\"next\"" + "," +
    " <" + url + query + "&page=" + last + ">; rel=\"last\"" + tail
  }

  /** The two links of a PaginationHeader, each without the comma between them. */
  function NextLink(url: string, query: string, next: string): string {
    "<" + url + query + "&page=" + next + ">; rel=\"next\""
  }

  function LastLink(url: string, query: string, last: string, tail: string): string {
    " " + "<" + (url + query + "&page=" + last) + ">" + ("; rel=\"last\"" + tail)
  }

  /**
   * On such a header the probe skips the `next` link and returns the page
   * number of the `last` link, provided the URL and query contain no letter
   * 'l' (so "last" can only come from rel="last"), no comma and no line
   * break, and carry no other `page` parameter.
   */
  lemma LastPageOfPaginationHeader(url: string, query: string, next: string, last: string, tail: string)
    requires 'l' !in url && 'l' !in query
    requires ',' !in url && ',' !in query && ',' !in tail && '>' !in tail
    requires SingleLine(url) && SingleLine(query)
    requires IsNumeral(next) && IsNumeral(last)
    requires Get(SearchParams(url + query), "page").None?
    ensures LastPage(Some(PaginationHeader(url, query, next, last, tail))) == Page(last)
  {
    PaginationHeaderPieces(url, query, next, last, tail);
    NextLinkLacksLast(url, query, next);
    LastLinkReadsLast(url, query, last, tail);
    LastPageOfTwoLinks(PaginationHeader(url, query, next, last, tail),
                       NextLink(url, query, next), LastLink(url, query, last, tail));
  }

  /** A header of two links, of which only the second holds "last", is read from that second link. */
  lemma LastPageOfTwoLinks(h: string, nextPiece: string, lastPiece: string)
    requires h == Join([nextPiece, lastPiece], ',')
    requires ',' !in nextPiece && !Contains(nextPiece, LastRel)
    requires ',' !in lastPiece && Contains(lastPiece, LastRel)
    ensures LastPage(Some(h)) == PageOfLink(lastPiece)
  {
    LastPageReadsFirstLastPiece([nextPiece], lastPiece, []);
    assert [nextPiece] + [lastPiece] + [] == [nextPiece, lastPiece];
  }

  lemma PaginationHeaderPieces(url: string, query: string, next: string, last: string, tail: string)
    ensures PaginationHeader(url, query, next, last, tail)
         == Join([NextLink(url, query, next), LastLink(url, query, last, tail)], ',')
  {
  }

  lemma NextLinkLacksLast(url: string, query: string, next: string)
    requires 'l' !in url && 'l' !in query && ',' !in url && ',' !in query && IsNumeral(next)
    ensures ',' !in NextLink(url, query, next) && !Contains(NextLink(url, query, next), LastRel)
  {
    var before := "<" + url + query + "&page=" + next + ">; re";
    assert ">; rel=\"next\"" == ">; re" + [LastRel[0]] + "=\"next\"";
    assert NextLink(url, query, next) == before + [LastRel[0]] + "=\"next\"";
    NotContainsAround(before, "=\"next\"", LastRel);
  }

  lemma LastLinkReadsLast(url: string, query: string, last: string, tail: string)
    requires ',' !in url && ',' !in query && ',' !in tail && '>' !in tail
    requires SingleLine(url) && SingleLine(query) && IsNumeral(last)
    requires Get(SearchParams(url + query), "page").None?
    ensures ',' !in LastLink(url, query, last, tail) && Contains(LastLink(url, query, last, tail), LastRel)
    ensures PageOfLink(LastLink(url, query, last, tail)) == Page(last)
  {
    LastLinkHasLast(url, query, last, tail);
    LastLinkTarget(url, query, last, tail);
    LastPageParam(url + query, last);
  }

  lemma LastLinkHasLast(url: string, query: string, last: string, tail: string)
    requires ',' !in url && ',' !in query && ',' !in tail && IsNumeral(last)
    ensures ',' !in LastLink(url, query, last, tail) && Contains(LastLink(url, query, last, tail), LastRel)
  {
    var piece := LastLink(url, query, last, tail);
    assert OccursAt(piece, LastRel, |piece| - |tail| - 5) by {
      assert piece[|piece| - |tail| - 5..|piece| - |tail| - 1] == LastRel;
    }
  }

  lemma LastLinkTarget(url: string, query: string, last: string, tail: string)
    requires '>' !in tail && SingleLine(url) && SingleLine(query) && IsNumeral(last)
    ensures PageOfLink(LastLink(url, query, last, tail))
         == ToPageResult(Get(SearchParams(url + query + "&page=" + last), "page"))
  {
    var target := url + query + "&page=" + last;
    var q := |url + query| + 1;
    assert PageDigitAt(target, q) by {
      assert target[q..q + 5] == "page=";
      assert target[q + 5] == last[0];
    }
    PageOfBracketedUrl(" ", target, "; rel=\"last\"" + tail);
  }

  /**
   * Appending `&page=<digits>` to a URL without a `page` parameter makes those
   * digits its value, whether or not the URL starts with the '?' that
   * URLSearchParams drops.
   */
  lemma LastPageParam(prefix: string, last: string)
    requires IsNumeral(last)
    requires Get(SearchParams(prefix), "page").None?
    ensures Get(SearchParams(prefix + "&page=" + last), "page") == Some(last)
  {
    if |prefix| > 0 && prefix[0] == '?' {
      SearchParamsDropsMark(prefix, last);
      PageParamAppended(prefix[1..], last);
    } else {
      SearchParamsKeepsAll(prefix, last);
      PageParamAppended(prefix, last);
    }
  }

  lemma SearchParamsDropsMark(prefix: string, last: string)
    requires |prefix| > 0 && prefix[0] == '?'
    ensures SearchParams(prefix) == Parse(prefix[1..])
    ensures SearchParams(prefix + "&page=" + last) == Parse(prefix[1..] + "&page=" + last)
  {
    var s := prefix + "&page=" + last;
    assert s[0] == '?' && s[1..] == prefix[1..] + "&page=" + last;
  }

  lemma SearchParamsKeepsAll(prefix: string, last: string)
    requires !(|prefix| > 0 && prefix[0] == '?')
    ensures SearchParams(prefix) == Parse(prefix)
    ensures SearchParams(prefix + "&page=" + last) == Parse(prefix + "&page=" + last)
  {
    var s := prefix + "&page=" + last;
    if |prefix| == 0 { assert s[0] == '&'; } else { assert s[0] == prefix[0]; }
  }

  /** The same for the parsed query itself. */
  lemma PageParamAppended(query: string, last: string)
    requires IsNumeral(last)
    requires Get(Parse(query), "page").None?
    ensures Get(Parse(query + "&page=" + last), "page") == Some(last)
  {
    var entry := "page" + "=" + last;
    PageEntryRegrouped(query, last);
    ParseConcat(query, entry);
    PageEntryParses(last);
    GetAppend(Parse(query), [("page", last)], "page");
  }

  lemma PageEntryRegrouped(prefix: string, last: string)
    ensures prefix + "&page=" + last == prefix + "&" + ("page" + "=" + last)
  {
    assert "&page=" == "&" + "page" + "=";
    assert "&page=" + last == "&" + ("page" + "=" + last);
    assert prefix + "&page=" + last == prefix + ("&page=" + last);
  }

  /** The entry `page=<digits>` parses to the single pair named `page`. */
  lemma PageEntryParses(last: string)
    requires IsNumeral(last)
    ensures Parse("page" + "=" + last) == [("page", last)]
  {
    var e := "page" + "=" + last;
    assert Plain("page");
    assert Plain(last) by {
      forall c | c in last ensures IsDigit(c) {
        var k :| 0 <= k < |last| && last[k] == c;
      }
    }
    assert '&' !in e;
    SplitWithoutSeparator(e, '&');
    ParseEntryPlain("page", last);
    assert ParseEntries([e]) == [ParseEntry(e)] by {
      assert e != "" && [e][1..] == [];
    }
    assert Parse(e) == ParseEntries([e]);
  }

  /*
   * The two sample headers quoted in the source. Their text is assembled from
   * short literals, and facts about it are read off character by character
   * (UrlTextChar, PlainChar, TextByChars) rather than with `!in`: the verifier
   * reasons about a long string literal only slowly, or not at all, and these
   * definitions add nothing to the model beyond that.
   */

  /** The API URL of the sample repository, shared by both samples. */
  const SampleRepositoryUrl := "https://api.github.com/repositories/" + "10270250/"

  /** The API URL of the sample repository's contributors listing. */
  const ContributorsUrl := SampleRepositoryUrl + "contributors"

  /** The sample `link` header quoted in getNumberOfContributors. */
  const ContributorsLinkSample :=
    "<" + ContributorsUrl + "?per_page=1&anon=true" + "&page=" + "2" + ">; rel=\"next\"" + "," +
    " <" + ContributorsUrl + "?per_page=1&anon=true" + "&page=" + "1746" + ">; rel=\"last\""

  /** The API URL of the sample repository's commits listing. */
  const CommitsUrl := SampleRepositoryUrl + "commits"

  /** The sample `link` header quoted in getNumberOfCommits, with its stray closing quote. */
  const CommitsLinkSample :=
    "<" + CommitsUrl + "?per_page=1" + "&page=" + "2" + ">; rel=\"next\"" + "," +
    " <" + CommitsUrl + "?per_page=1" + "&page=" + "15221" + ">; rel=\"last\"" + "\""

  /** Text that may stand in the URL part of a pagination header for LastPageOfPaginationHeader. */
  predicate PlainUrlText(s: string) {
    'l' !in s && ',' !in s && SingleLine(s)
  }

  /** A character PlainUrlText admits. */
  predicate UrlTextChar(c: char) {
    c != 'l' && c != ',' && !IsLineTerminator(c)
  }

  /** A character FormUrlEncoded.Plain admits. */
  predicate PlainChar(c: char) {
    c != '&' && c != '=' && c != '+' && c != '%'
  }

  /** Both predicates, read off character by character. */
  lemma TextByChars(s: string)
    requires forall k :: 0 <= k < |s| ==> UrlTextChar(s[k])
    ensures PlainUrlText(s)
    ensures (forall k :: 0 <= k < |s| ==> PlainChar(s[k])) ==> Plain(s)
  {
    forall c | c in s
      ensures UrlTextChar(c)
    {
      var k :| 0 <= k < |s| && s[k] == c;
    }
    if forall k :: 0 <= k < |s| ==> PlainChar(s[k]) {
      forall c | c in s
        ensures PlainChar(c)
      {
        var k :| 0 <= k < |s| && s[k] == c;
      }
    }
  }

  /** The two sample URLs may stand in a pagination header and need no escaping. */
  lemma SampleUrlFacts()
    ensures PlainUrlText(ContributorsUrl) && PlainUrlText(CommitsUrl)
    ensures Plain(ContributorsUrl) && Plain(CommitsUrl)
  {
    var host, id, c1, c2 := "https://api.github.com/repositories/", "10270250/", "contributors", "commits";
    assert forall k :: 0 <= k < |host| ==> UrlTextChar(host[k]) && PlainChar(host[k]);
    assert forall k :: 0 <= k < |id| ==> UrlTextChar(id[k]) && PlainChar(id[k]);
    assert forall k :: 0 <= k < |c1| ==> UrlTextChar(c1[k]) && PlainChar(c1[k]);
    assert forall k :: 0 <= k < |c2| ==> UrlTextChar(c2[k]) && PlainChar(c2[k]);
    TextByChars(host);
    TextByChars(id);
    TextByChars(c1);
    TextByChars(c2);
  }

  /** A query whose parameters are all named something other than `page`. */
  lemma QueryWithoutPage(url: string, query: string, params: seq<Param>)
    requires |url| > 0 && url[0] != '?'
    requires forall k :: 0 <= k < |params| ==> PlainParam(params[k]) && params[k].0 != "page"
    requires url + query == Serialize(params)
    ensures Get(SearchParams(url + query), "page").None?
  {
    ParseSerialize(params);
  }

  /** The contributors sample yields "1746": the rel="next" piece is skipped. */
  lemma ContributorsSampleLastPage()
    ensures LastPage(Some(ContributorsLinkSample)) == Page("1746")
  {
    ContributorsSampleShape();
    ContributorsSampleArguments();
    LastPageOfPaginationHeader(ContributorsUrl, "?per_page=1&anon=true", "2", "1746", "");
  }

  /** The contributors sample meets the requirements of LastPageOfPaginationHeader. */
  lemma ContributorsSampleArguments()
    ensures PlainUrlText(ContributorsUrl) && PlainUrlText("?per_page=1&anon=true")
    ensures IsNumeral("2") && IsNumeral("1746")
    ensures Get(SearchParams(ContributorsUrl + "?per_page=1&anon=true"), "page").None?
  {
    var query := "?per_page=1&anon=true";
    assert forall k :: 0 <= k < |query| ==> UrlTextChar(query[k]);
    TextByChars(query);
    SampleUrlFacts();
    ContributorsQueryWithoutPage();
  }

  lemma ContributorsSampleShape()
    ensures ContributorsLinkSample == PaginationHeader(ContributorsUrl, "?per_page=1&anon=true", "2", "1746", "")
  {
  }

  lemma ContributorsQueryWithoutPage()
    ensures Get(SearchParams(ContributorsUrl + "?per_page=1&anon=true"), "page").None?
  {
    SampleUrlFacts();
    var name := ContributorsUrl + "?per_page";
    var params := [(name, "1"), ("anon", "true")];
    var es := [name + "=" + "1", "anon" + "=" + "true"];
    assert Entries(params) == es;
    assert Join(es, '&') == es[0] + ['&'] + es[1];
    assert "?per_page=1&anon=true" == "?per_page" + "=" + "1" + ['&'] + ("anon" + "=" + "true");
    assert Plain(name);
    QueryWithoutPage(ContributorsUrl, "?per_page=1&anon=true", params);
  }

  /** The commits sample yields "15221"; the stray quote after rel="last" changes nothing. */
  lemma CommitsSampleLastPage()
    ensures LastPage(Some(CommitsLinkSample)) == Page("15221")
  {
    CommitsSampleShape();
    CommitsSampleArguments();
    LastPageOfPaginationHeader(CommitsUrl, "?per_page=1", "2", "15221", "\"");
  }

  /** The commits sample meets the requirements of LastPageOfPaginationHeader. */
  lemma CommitsSampleArguments()
    ensures PlainUrlText(CommitsUrl) && PlainUrlText("?per_page=1")
    ensures IsNumeral("2") && IsNumeral("15221") && ',' !in "\"" && '>' !in "\""
    ensures Get(SearchParams(CommitsUrl + "?per_page=1"), "page").None?
  {
    var query := "?per_page=1";
    assert forall k :: 0 <= k < |query| ==> UrlTextChar(query[k]);
    TextByChars(query);
    SampleUrlFacts();
    CommitsQueryWithoutPage();
  }

  lemma CommitsSampleShape()
    ensures CommitsLinkSample == PaginationHeader(CommitsUrl, "?per_page=1", "2", "15221", "\"")
  {
  }

  lemma CommitsQueryWithoutPage()
    ensures Get(SearchParams(CommitsUrl + "?per_page=1"), "page").None?
  {
    SampleUrlFacts();
    var name := CommitsUrl + "?per_page";
    var params := [(name, "1")];
    assert Entries(params) == [name + "=" + "1"];
    assert "?per_page=1" == "?per_page" + "=" + "1";
    assert Plain(name);
    QueryWithoutPage(CommitsUrl, "?per_page=1", params);
  }
}

=== FILE: metadata.dfy ===
/**
 * getData: the stages in order, each fed by the identifier the previous ones
 * derived, and their results gathered into one record. The HTTP requests are
 * not modelled; their decoded outcomes are given by `Services`, a value the
 * caller supplies, with None for a request or decoding step that throws.
 */
module Metadata {
  import opened Wrappers
  import opened Repository
  import opened LinkHeader
  import opened Selection

  /** One element of the commits listing: its `commit.author.date`. */
  datatype Commit = Commit(authorDate: string)

  /** What the GitHub API answers for one `owner/name`, already decoded. */
  datatype GitHubAnswers<V> = GitHubAnswers(
    commits: seq<Commit>,             // body of /commits
    contributorsLink: Option<string>, // `link` header of /contributors?per_page=1&anon=true
    commitsLink: Option<string>,      // `link` header of /commits?per_page=1
    releases: seq<Release>,           // body of /releases?per_page=1
    files: map<string, V>)            // `files` of /community/profile

  /** The collaborators the source calls but does not define. */
  datatype Services<!V> = Services(
    encode: string -> string,                      // encodeURIComponent
    registry: string -> Option<string>,            // npms.io: collected.metadata.links.repository
    github: string -> Option<GitHubAnswers<V>>,    // the six GitHub requests for an owner/name
    stringify: V -> string)                        // JSON.stringify(value, null, 2)

  /** The record getData resolves to, fields in the source's order. */
  datatype RepositoryMetadata = RepositoryMetadata(
    repository: string,
    lastCommit: string,
    numberOfContributors: Option<string>,
    numberOfCommits: Option<string>,
    lastRelease: Option<string>,
    license: string)

  /** A probe result as the record holds it: the page text, or null. */
  function Nullable(p: PageResult): Option<string>
    requires !p.Fail?
  {
    if p.Page? then Some(p.value) else None
  }

  /** getData: None when any stage throws, the assembled record otherwise. */
  function GetData<V>(pkgName: string, env: Services<V>): Option<RepositoryMetadata> {
    match env.registry(env.encode(pkgName))
    case None => None
    case Some(repository) =>
      match env.github(OwnerAndRepository(repository))
      case None => None
      case Some(gh) =>
        var contributors := LastPage(gh.contributorsLink);
        var commits := LastPage(gh.commitsLink);
        if |gh.commits| == 0 || contributors.Fail? || commits.Fail? then None
        else Some(RepositoryMetadata(
          repository,
          gh.commits[0].authorDate,
          Nullable(contributors),
          Nullable(commits),
          LastRelease(gh.releases),
          License(gh.files, env.stringify)))
  }

  /**
   * All or nothing: getData resolves exactly when the registry names a
   * repository, GitHub answers for the identifier derived from it, the
   * commits listing is non-empty and both last-page probes succeed; the two
   * sentinels never make it fail.
   */
  lemma GetDataSucceedsIff<V>(pkgName: string, env: Services<V>)
    ensures GetData(pkgName, env).Some? <==>
      var url := env.registry(env.encode(pkgName));
      url.Some? && var gh := env.github(OwnerAndRepository(url.value));
      gh.Some? && |gh.value.commits| > 0
      && !LastPage(gh.value.contributorsLink).Fail? && !LastPage(gh.value.commitsLink).Fail?
  {
  }

  /**
   * The record carries each stage's result unchanged: `repository` is the URL
   * as the registry gave it (not the owner/name identifier the GitHub requests
   * use), both counts come from the same last-page probe, and the release and
   * license fields are the two selections.
   */
  lemma GetDataFields<V>(pkgName: string, env: Services<V>)
    requires GetData(pkgName, env).Some?
    ensures var url := env.registry(env.encode(pkgName)).value;
            var gh := env.github(OwnerAndRepository(url)).value;
            var d := GetData(pkgName, env).value;
            d.repository == url
            && d.lastCommit == gh.commits[0].authorDate
            && d.numberOfContributors == Nullable(LastPage(gh.contributorsLink))
            && d.numberOfCommits == Nullable(LastPage(gh.commitsLink))
            && d.lastRelease == LastRelease(gh.releases)
            && d.license == License(gh.files, env.stringify)
  {
  }

  /**
   * A repository on github.com is looked up under its owner/name while the
   * record keeps the full URL.
   */
  lemma GetDataForGitHubUrl<V>(pkgName: string, env: Services<V>, rest: string, gh: GitHubAnswers<V>)
    requires env.registry(env.encode(pkgName)) == Some(GitHubPrefix + rest)
    requires env.github(rest) == Some(gh)
    requires |gh.commits| > 0 && !LastPage(gh.contributorsLink).Fail? && !LastPage(gh.commitsLink).Fail?
    ensures GetData(pkgName, env).Some?
    ensures GetData(pkgName, env).value.repository == GitHubPrefix + rest
    ensures GetData(pkgName, env).value.lastRelease == LastRelease(gh.releases)
  {
    OwnerAndRepositoryOfGitHubUrl(rest);
  }
}

=== FILE: page_pattern.dfy ===
/**
 * `str.match(/<.*page=(\d+).*>/)` and the whole match it returns.
 *
 * The pattern has no flags, so `.` is any character except the ECMAScript
 * line terminators (LF, CR, U+2028, U+2029) and `\d` is an ASCII digit. A
 * JavaScript regular expression returns the match that starts leftmost and,
 * at that start, the one its backtracking prefers. For this pattern the
 * preferred match is the longest one: whatever the engine settles on for the
 * first `.*` and for the digits, the greedy trailing `.*` runs on to the last
 * '>' before the end of the line (MatchEndIsGreedy below).
 */
module PagePattern {
  import opened Wrappers

  predicate IsLineTerminator(c: char) {
    c == '\n' || c == '\r' || c == '\U{2028}' || c == '\U{2029}'
  }

  predicate IsDigit(c: char) {
    '0' <= c <= '9'
  }

  /** s[a..b] matches `.*`. */
  predicate Dots(s: string, a: nat, b: nat)
    requires a <= b <= |s|
  {
    forall k :: a <= k < b ==> !IsLineTerminator(s[k])
  }

  /** s[a..b] matches `\d+`. */
  predicate Digits(s: string, a: nat, b: nat)
    requires a <= b <= |s|
  {
    a < b && forall k :: a <= k < b ==> IsDigit(s[k])
  }

  /**
   * s[i..j] matches `<.*page=(\d+).*>` with the first `.*` covering s[i+1..q],
   * "page=" at q, the digits s[q+5..t] and the trailing `.*` covering s[t..j-1].
   */
  predicate MatchesWith(s: string, i: nat, q: nat, t: nat, j: nat) {
    i < q && q + 5 < t < j <= |s|
    && s[i] == '<' && Dots(s, i + 1, q) && s[q..q + 5] == "page="
    && Digits(s, q + 5, t) && Dots(s, t, j - 1) && s[j - 1] == '>'
  }

  /** s[i..j] is a match of the pattern. */
  ghost predicate Matches(s: string, i: nat, j: nat) {
    exists q: nat, t: nat :: MatchesWith(s, i, q, t, j)
  }

  /** "page=" followed by a digit starts at q. */
  predicate PageDigitAt(s: string, q: nat) {
    q + 6 <= |s| && s[q..q + 5] == "page=" && IsDigit(s[q + 5])
  }

  /** The first index e >= from that ends the line (or |s|). */
  function LineEnd(s: string, from: nat): (e: nat)
    requires from <= |s|
    ensures from <= e <= |s| && Dots(s, from, e)
    ensures e < |s| ==> IsLineTerminator(s[e])
    decreases |s| - from
  {
    if from == |s| || IsLineTerminator(s[from]) then from else LineEnd(s, from + 1)
  }

  /** The last index in [lo, hi) holding `c`. */
  function LastIndexIn(s: string, c: char, lo: nat, hi: nat): (r: Option<nat>)
    requires hi <= |s|
    ensures r.Some? ==> lo <= r.value < hi && s[r.value] == c
                        && forall k :: r.value < k < hi ==> s[k] != c
    ensures r.None? ==> forall k :: lo <= k < hi ==> s[k] != c
    decreases hi
  {
    if hi <= lo then None
    else if s[hi - 1] == c then Some(hi - 1)
    else LastIndexIn(s, c, lo, hi - 1)
  }

  /** Some q in [lo, hi - 6] where "page=" and a digit start. */
  function FindPageDigit(s: string, lo: nat, hi: nat): (r: Option<nat>)
    requires hi <= |s|
    ensures r.Some? ==> lo <= r.value && r.value + 6 <= hi && PageDigitAt(s, r.value)
    ensures r.None? ==> forall q: nat :: lo <= q && q + 6 <= hi ==> !PageDigitAt(s, q)
    decreases hi - lo
  {
    if lo + 6 > hi then None
    else if PageDigitAt(s, lo) then Some(lo)
    else FindPageDigit(s, lo + 1, hi)
  }

  /** Every character of a match after its '<' belongs to the same line. */
  lemma MatchStaysOnLine(s: string, i: nat, q: nat, t: nat, j: nat)
    requires MatchesWith(s, i, q, t, j)
    ensures Dots(s, i + 1, j)
  {
    forall k | i + 1 <= k < j
      ensures !IsLineTerminator(s[k])
    {
      if q <= k < q + 5 {
        assert s[k] == "page="[k - q];
      }
    }
  }

  /** The longest match starting at i, as the end index. */
  function MatchAt(s: string, i: nat): (r: Option<nat>)
    requires i < |s|
    ensures r.Some? ==> Matches(s, i, r.value)
    ensures r.Some? ==> forall j: nat :: Matches(s, i, j) ==> j <= r.value
    ensures r.None? ==> forall j: nat :: !Matches(s, i, j)
  {
    if s[i] != '<' then None
    else
      var e := LineEnd(s, i + 1);
      match LastIndexIn(s, '>', i + 1, e)
      case None =>
        assert forall j: nat :: !Matches(s, i, j) by {
          forall j: nat, q: nat, t: nat | MatchesWith(s, i, q, t, j)
            ensures false
          {
            MatchStaysOnLine(s, i, q, t, j);
          }
        }
        None
      case Some(r) =>
        match FindPageDigit(s, i + 1, r)
        case None =>
          assert forall j: nat :: !Matches(s, i, j) by {
            forall j: nat, q: nat, t: nat | MatchesWith(s, i, q, t, j)
              ensures false
            {
              MatchStaysOnLine(s, i, q, t, j);
              assert PageDigitAt(s, q);
            }
          }
          None
        case Some(q) =>
          assert MatchesWith(s, i, q, q + 6, r + 1);
          assert forall j: nat :: Matches(s, i, j) ==> j <= r + 1 by {
            forall j: nat, q': nat, t: nat | MatchesWith(s, i, q', t, j)
              ensures j <= r + 1
            {
              MatchStaysOnLine(s, i, q', t, j);
            }
          }
          Some(r + 1)
  }

  /**
   * For every way of splitting a match at i into `<`, `.*`, `page=`, digits,
   * `.*` and `>`, the trailing `.*` can be stretched to the end MatchAt gives.
   * So whichever split the backtracking engine settles on first, its greedy
   * trailing `.*` produces that end.
   */
  lemma MatchEndIsGreedy(s: string, i: nat, q: nat, t: nat, j: nat)
    requires i < |s| && MatchesWith(s, i, q, t, j)
    ensures MatchAt(s, i).Some? && MatchesWith(s, i, q, t, MatchAt(s, i).value)
  {
    assert Matches(s, i, j);
    var e := LineEnd(s, i + 1);
    MatchStaysOnLine(s, i, q, t, j);
    var end := MatchAt(s, i).value;
    assert end - 1 < e;
  }

  /** The first start at or after `from` where the pattern matches, with its longest end. */
  function FirstMatchFrom(s: string, from: nat): (r: Option<(nat, nat)>)
    requires from <= |s|
    ensures r.Some? ==> from <= r.value.0 < |s| && MatchAt(s, r.value.0) == Some(r.value.1)
    ensures r.Some? ==> forall i :: from <= i < r.value.0 ==> MatchAt(s, i).None?
    ensures r.None? ==> forall i :: from <= i < |s| ==> MatchAt(s, i).None?
    decreases |s| - from
  {
    if from == |s| then None
    else match MatchAt(s, from)
      case Some(j) => Some((from, j))
      case None => FirstMatchFrom(s, from + 1)
  }

  /**
   * `s.match(/<.*page=(\d+).*>/)`: None for null, otherwise the bounds (i, j)
   * of match[0] == s[i..j]: the leftmost start, and the longest match there.
   */
  function FindMatch(s: string): (r: Option<(nat, nat)>)
    ensures r.Some? ==> Matches(s, r.value.0, r.value.1) && r.value.0 + 8 <= r.value.1 <= |s|
    ensures r.Some? ==> forall i: nat, j: nat :: i < r.value.0 ==> !Matches(s, i, j)
    ensures r.Some? ==> forall j: nat :: Matches(s, r.value.0, j) ==> j <= r.value.1
    ensures r.None? <==> forall i: nat, j: nat :: !Matches(s, i, j)
  {
    var r := FirstMatchFrom(s, 0);
    assert forall i: nat, j: nat :: Matches(s, i, j) ==> MatchAt(s, i).Some? by {
      forall i: nat, j: nat | Matches(s, i, j)
        ensures MatchAt(s, i).Some?
      {
        var q: nat, t: nat :| MatchesWith(s, i, q, t, j);
      }
    }
    assert r.Some? ==> r.value.0 + 8 <= r.value.1 by {
      if r.Some? {
        var q: nat, t: nat :| MatchesWith(s, r.value.0, q, t, r.value.1);
      }
    }
    r
  }
}

=== FILE: repository.dfy ===
/**
 * getOwnerAndRepository: turning the repository URL recorded for a package
 * into the `owner/name` identifier used in GitHub API paths. The source does
 * this with `repository.replace("https://github.com/", "")`, i.e. JavaScript's
 * String.prototype.replace with a string pattern, which removes the FIRST
 * occurrence of the literal wherever it is and leaves the string alone when
 * the literal does not occur.
 */
module Repository {
  import opened Wrappers
  import opened Strings

  /** The literal removed from the repository URL (19 characters). */
  const GitHubPrefix := "https://github.com/"

  /** `s.replace(pat, "")` for a string pattern: the first occurrence of `pat` is cut out. */
  function RemoveFirst(s: string, pat: string): (r: string)
    ensures IndexOf(s, pat).None? ==> r == s
    ensures IndexOf(s, pat).Some? ==>
      var i := IndexOf(s, pat).value;
      |r| == |s| - |pat| && i <= |r| && s == r[..i] + pat + r[i..]
  {
    match IndexOf(s, pat)
    case None => s
    case Some(i) =>
      var r := s[..i] + s[i + |pat|..];
      assert s == r[..i] + pat + r[i..] by {
        assert r[..i] == s[..i] && r[i..] == s[i + |pat|..];
        assert s[i..i + |pat|] == pat;
        assert s == s[..i] + s[i..i + |pat|] + s[i + |pat|..];
      }
      r
  }

  /** getOwnerAndRepository. */
  function OwnerAndRepository(repository: string): string
  {
    RemoveFirst(repository, GitHubPrefix)
  }

  /**
   * A GitHub URL loses exactly its leading literal: "https://github.com/" + rest
   * becomes rest, whatever rest holds (the first occurrence is the leading one).
   */
  lemma OwnerAndRepositoryOfGitHubUrl(rest: string)
    ensures OwnerAndRepository(GitHubPrefix + rest) == rest
  {
    var s := GitHubPrefix + rest;
    assert OccursAt(s, GitHubPrefix, 0) by { assert s[..|GitHubPrefix|] == GitHubPrefix; }
  }

  /**
   * The sample in the source's comment: https://github.com/facebook/react,
   * written as the literal followed by the owner/name, gives facebook/react.
   */
  lemma OwnerAndRepositoryOfSample()
    ensures OwnerAndRepository(GitHubPrefix + "facebook/react") == "facebook/react"
  {
    OwnerAndRepositoryOfGitHubUrl("facebook/react");
  }

  /**
   * The identifier equals the input exactly when the literal does not occur in
   * it: a URL on another host or scheme passes through unchanged, and any URL
   * that holds the literal comes out 19 characters shorter.
   */
  lemma OwnerAndRepositoryUnchangedIff(repository: string)
    ensures OwnerAndRepository(repository) == repository <==> !Contains(repository, GitHubPrefix)
    ensures Contains(repository, GitHubPrefix) ==>
      |OwnerAndRepository(repository)| == |repository| - |GitHubPrefix|
  {
  }

  /**
   * The literal is removed even when it is not at the start: a prefix without
   * an 'h' (such as "git+") is kept in front of the rest.
   */
  lemma OwnerAndRepositoryRemovesInnerLiteral(pre: string, rest: string)
    requires 'h' !in pre
    ensures OwnerAndRepository(pre + GitHubPrefix + rest) == pre + rest
  {
    var s := pre + GitHubPrefix + rest;
    assert OccursAt(s, GitHubPrefix, |pre|) by {
      assert s[|pre|..|pre| + |GitHubPrefix|] == GitHubPrefix;
    }
    forall j: nat | j < |pre|
      ensures !OccursAt(s, GitHubPrefix, j)
    {
      assert s[j] == pre[j];
    }
    assert s[..|pre|] == pre;
    assert s[|pre| + |GitHubPrefix|..] == rest;
  }
}

=== FILE: selection.dfy ===
/**
 * The two places where a missing resource becomes a fixed text instead of a
 * failure: getLastRelease (the newest release's name, or "No release found")
 * and getLicense (the serialised `files.license`, or "No license found").
 */
module Selection {
  import opened Wrappers

  const NoRelease := "No release found"
  const NoLicense := "No license found"

  /** One element of the releases listing; GitHub's `name` may be null. */
  datatype Release = Release(name: Option<string>)

  /** getLastRelease after decoding `releases?per_page=1`. */
  function LastRelease(releases: seq<Release>): Option<string> {
    if |releases| > 0 then releases[0].name else Some(NoRelease)
  }

  /**
   * getLicense after decoding `community/profile`: `files` is the profile's
   * `files` object, `stringify` stands for JSON.stringify(value, null, 2).
   */
  function License<V>(files: map<string, V>, stringify: V -> string): string {
    if "license" in files then stringify(files["license"]) else NoLicense
  }

  /**
   * The release sentinel appears exactly when the listing is empty, unless
   * the newest release is itself named "No release found"; otherwise the
   * result is the newest release's name, and only the first element is read.
   */
  lemma LastReleaseSentinel(releases: seq<Release>)
    ensures LastRelease(releases) == Some(NoRelease)
        <==> |releases| == 0 || releases[0].name == Some(NoRelease)
    ensures |releases| > 0 ==> LastRelease(releases) == releases[0].name
    ensures LastRelease(releases) == LastRelease(releases[..if |releases| > 0 then 1 else 0])
  {
  }

  /**
   * The license sentinel appears exactly when `files` has no own `license`
   * key, given that serialisation never produces that bare text (JSON text of
   * a string carries quotes); with the key present the result is its
   * serialisation.
   */
  lemma LicenseSentinel<V>(files: map<string, V>, stringify: V -> string)
    requires forall v :: stringify(v) != NoLicense
    ensures License(files, stringify) == NoLicense <==> "license" !in files
    ensures "license" in files ==> License(files, stringify) == stringify(files["license"])
  {
  }

  /** Nothing in `files` but its `license` entry affects the result. */
  lemma LicenseReadsOnlyLicenseKey<V>(files: map<string, V>, other: map<string, V>, stringify: V -> string)
    requires ("license" in files <==> "license" in other)
    requires "license" in files ==> files["license"] == other["license"]
    ensures License(files, stringify) == License(other, stringify)
  {
  }
}

=== FILE: strings.dfy ===
/**
 * The few JavaScript string operations the aggregator relies on:
 * String.prototype.indexOf / includes with a string argument, and
 * String.prototype.split with a one-character separator, together with the
 * Join that undoes it.
 */
module Strings {
  import opened Wrappers

  /** `pat` occurs in `s` starting at index `i`. */
  predicate OccursAt(s: string, pat: string, i: nat) {
    i + |pat| <= |s| && s[i..i + |pat|] == pat
  }

  /** First index at or after `from` where `pat` occurs (indexOf(pat, from)). */
  function IndexFrom(s: string, pat: string, from: nat): (r: Option<nat>)
    ensures r.Some? ==> from <= r.value && OccursAt(s, pat, r.value)
    ensures r.Some? ==> forall j :: from <= j < r.value ==> !OccursAt(s, pat, j)
    ensures r.None? ==> forall j :: from <= j ==> !OccursAt(s, pat, j)
    decreases |s| - from
  {
    if from + |pat| > |s| then None
    else if s[from..from + |pat|] == pat then Some(from)
    else IndexFrom(s, pat, from + 1)
  }

  /** The first occurrence of `pat` in `s`, as `s.indexOf(pat)` finds it (None for -1). */
  function IndexOf(s: string, pat: string): (r: Option<nat>)
    ensures r.Some? ==> OccursAt(s, pat, r.value) && forall j: nat :: j < r.value ==> !OccursAt(s, pat, j)
    ensures r.None? <==> forall j: nat :: !OccursAt(s, pat, j)
  {
    IndexFrom(s, pat, 0)
  }

  /** `s.includes(pat)`. */
  predicate Contains(s: string, pat: string) {
    IndexOf(s, pat).Some?
  }

  /** `s.split(sep)` for a one-character separator: the pieces between separators, always at least one. */
  function Split(s: string, sep: char): (r: seq<string>)
    ensures |r| >= 1
    ensures forall k :: 0 <= k < |r| ==> sep !in r[k]
    ensures Join(r, sep) == s
    decreases |s|
  {
    if |s| == 0 then [""]
    else
      var rest := Split(s[1..], sep);
      if s[0] == sep then
        [""] + rest
      else
        assert s == [s[0]] + s[1..];
        [[s[0]] + rest[0]] + rest[1..]
  }

  /** `pieces.join(sep)`. */
  function Join(pieces: seq<string>, sep: char): string
    decreases |pieces|
  {
    if |pieces| == 0 then ""
    else if |pieces| == 1 then pieces[0]
    else pieces[0] + [sep] + Join(pieces[1..], sep)
  }

  /** Splitting a concatenation at a separator splits each side independently. */
  lemma {:induction false} SplitConcat(a: string, b: string, sep: char)
    ensures Split(a + [sep] + b, sep) == Split(a, sep) + Split(b, sep)
    decreases |a|
  {
    var s := a + [sep] + b;
    if |a| == 0 {
      assert s[0] == sep && s[1..] == b;
    } else {
      assert s[0] == a[0] && s[1..] == a[1..] + [sep] + b;
      SplitConcat(a[1..], b, sep);
      var left := Split(a[1..], sep);
      var rest := Split(s[1..], sep);
      assert rest == left + Split(b, sep);
      if a[0] != sep {
        assert rest[0] == left[0];
        assert rest[1..] == left[1..] + Split(b, sep);
      }
    }
  }

  /** A string without the separator is a single piece. */
  lemma {:induction false} SplitWithoutSeparator(a: string, sep: char)
    requires sep !in a
    ensures Split(a, sep) == [a]
    decreases |a|
  {
    if |a| > 0 {
      SplitWithoutSeparator(a[1..], sep);
      assert a == [a[0]] + a[1..];
    }
  }

  /** Split undoes Join whenever no piece holds the separator. */
  lemma {:induction false} SplitJoin(pieces: seq<string>, sep: char)
    requires |pieces| >= 1
    requires forall k :: 0 <= k < |pieces| ==> sep !in pieces[k]
    ensures Split(Join(pieces, sep), sep) == pieces
    decreases |pieces|
  {
    SplitWithoutSeparator(pieces[0], sep);
    if |pieces| > 1 {
      SplitJoin(pieces[1..], sep);
      SplitConcat(pieces[0], Join(pieces[1..], sep), sep);
      assert pieces == [pieces[0]] + pieces[1..];
    }
  }

  /**
   * `pat` does not occur where its first character appears only once and is
   * followed by something other than its second character.
   */
  lemma NotContainsAround(a: string, b: string, pat: string)
    requires |pat| >= 2 && pat[0] !in a && pat[0] !in b
    requires |b| > 0 && b[0] != pat[1]
    ensures !Contains(a + [pat[0]] + b, pat)
  {
    var s := a + [pat[0]] + b;
    assert s[|a| + 1] == b[0];
  }
}

=== FILE: wrappers.dfy ===
/** Optional values: the model's stand-in for JavaScript's null and undefined. */
module Wrappers {

  datatype Option<+T> = None | Some(value: T)
}
